=== FILE: README.md ===
# Liberty Bikes game client: message-driven state synchronizer

A Dafny model of the core of the browser client's `GameComponent` in Liberty
Bikes. The server pushes small partial-update messages. Each message can carry
any subset of the fields `requeue`, `obstacles`, `movingObstacles`,
`playerlist`, `players` and `keepAlive`. The component applies those fields in
a fixed order to its in-memory round: the tracked players, the moving
obstacles, the static-obstacle layer and the off-screen trail buffer. It then
draws one frame.

The model is a pure function `Synchronizer.Step(State, Message)`. The canvas
and createjs objects are replaced by logs:

- `obstacleLayer` lists every grey rectangle painted into the static-obstacle shape;
- `trail` lists every operation on the off-screen trail canvas: `Stamp` (a
  `BoxSize` square), `Erase` (a `clearRect`) and `Materialize` (the bitmap
  refill of the visible trail layer over the whole 600 by 600 buffer);
- `stage` is the set of current stage children;
- `frames` counts `stage.update()` calls;
- `outbox` holds the commands sent back to the server.

Moving-obstacle shapes are identified by arena handles taken from `nextHandle`.
`GameState.Valid` is the invariant that keeps these handles fresh.

Modules follow the handler's branches:

- `Entities`: records, constants and the log entries;
- `Messages`: the message shape;
- `GameState`: the state, `processRequeue` and the page reload;
- `StaticObstacles`: the `obstacles` branch;
- `MovingObstacles`: the `movingObstacles` branch;
- `PlayerList`: the `playerlist` branch (the roster);
- `PlayerStatus`: the `players` branch;
- `Synchronizer`: the whole handler;
- `StatusBadge`: `getStatus`;
- `Requeue`: the routing decision of `requeue()`.

JavaScript truthiness is modelled explicitly:

- `requeue` is acted on only when present and non-empty.
- Arrays are truthy even when empty. So `players: []` still triggers the end-of-round reveal, and `movingObstacles: []` creates the (empty) tracked list when there was none.
- `keepAlive` is a boolean.

Behaviour of the code that the model keeps:

- `processRequeue` does not stop the handler. `location.reload()` is asynchronous, so the other fields of the same message are still applied. `Synchronizer.RequeueDiscardsRest` shows that after the reload nothing of them remains, except a keep-alive that the same message sent, which stays sent.
- A `players` entry with an unknown id makes the code dereference a missing lookup and throw (game.component.ts:127-145); the model makes a known id a precondition (see "Left out").
- The tooltip reset happens for any entry that is not `Alive` and has a false `alive` flag, whatever its status.

## Model

| member | source | states |
|---|---|---|
| Synchronizer.Step | frontend/prebuild/src/app/game/game.component.ts:51-162 | One message keeps the handle invariant and draws exactly one frame. It sends a keep-alive iff asked to and nothing else. A requeue records the round id and asks for a reload. The obstacle layer keeps its old contents, followed by exactly one grey paint of each incoming obstacle scaled by 5, in order. The player map is the roster fold followed by the status fold and, when no status entry is `Alive`, the reveal of every tooltip. The status list only names players known once the roster has run. Players are created by the roster only, and a player neither list names changes at most in its tooltip. The trail gains, after its old contents, first the moving-obstacle clears of an in-place update and then the stamps and refreshes of the `Alive` status entries, so clears under obstacles come before new stamps. The moving obstacles are those the `movingObstacles` field alone would leave. The stage is that field's stage plus the roster's sprites. |
| Synchronizer.AfterRequeue | frontend/prebuild/src/app/game/game.component.ts:53-55 | A non-empty `requeue` sets the round id and asks for a reload. Otherwise nothing changes. |
| Synchronizer.AfterObstacles | frontend/prebuild/src/app/game/game.component.ts:56-65 | The obstacle layer keeps its old prefix and gains exactly one grey paint per incoming obstacle, the rectangle scaled by 5, in order. Nothing else changes. |
| Synchronizer.AfterMovingObstacles | frontend/prebuild/src/app/game/game.component.ts:66-101 | The moving-obstacle step leaves players, session fields and the obstacle layer alone. It appends exactly the clears of an in-place update to the trail, leaves the obstacles and stage the branch alone would leave, and keeps the handle invariant. |
| Synchronizer.AfterRoster | frontend/prebuild/src/app/game/game.component.ts:103-123 | The player map becomes the roster fold of the message's list, so exactly the roster's ids are added and players it does not name are unchanged. Exactly the roster's sprites join the stage. Nothing else changes. |
| Synchronizer.AfterPlayers | frontend/prebuild/src/app/game/game.component.ts:124-154 | Without a status list nothing changes. With one, every entry names a tracked player. The player map becomes the status fold, followed by the reveal of every tooltip when no entry is `Alive`. A player the list does not name changes at most in its tooltip. The trail gains exactly the stamps and refreshes of the `Alive` entries, and nothing else changes. |
| Synchronizer.MessagePlayers | frontend/prebuild/src/app/game/game.component.ts:103-154 | Across one message, the player map is the roster fold then the status fold and reveal, every status id is known by then, and a player neither list names changes at most in its tooltip. |
| Synchronizer.MessageTrail | frontend/prebuild/src/app/game/game.component.ts:66-154 | Across one message, the trail gains the moving-obstacle clears and then the status stamps, after its old contents. |
| Synchronizer.MessageLayers | frontend/prebuild/src/app/game/game.component.ts:53-123 | Across one message, the obstacle layer is the one the `obstacles` field leaves, the moving obstacles are those the `movingObstacles` field leaves, and the stage is that field's stage plus the roster's sprites. The session fields are those the requeue leaves. |
| Synchronizer.EmptyMessageOnlyDraws | frontend/prebuild/src/app/game/game.component.ts:162 | A message with no field changes nothing but the frame count. |
| Synchronizer.RequeueDiscardsRest | frontend/prebuild/src/app/game/game.component.ts:53-55 | After a requeue and the reload, the state is that of a page freshly loaded for the new round, whatever else the message carried. Only the commands already sent survive, followed by the re-join the reloaded page sends. |
| Synchronizer.PlayerIdentityStable | frontend/prebuild/src/app/game/game.component.ts:105-112 | A tracked player stays tracked with its original name and colour, whatever message arrives. |
| GameState.ProcessRequeue | frontend/prebuild/src/app/game/game.component.ts:280-284 | It sets the round id and asks for a reload. Nothing else changes. |
| GameState.JoinCommand | frontend/prebuild/src/app/game/game.component.ts:172-180 | A session flagged as spectator sends the spectator join; any other session sends a player join carrying the stored user id. |
| GameState.Initial | frontend/prebuild/src/app/game/game.component.ts:169-209 | The loaded page knows no player and no obstacle, has empty drawing logs, has the trail and obstacle layers on the stage, has sent exactly its join and has drawn one frame. It satisfies the invariant. |
| GameState.Reload | frontend/prebuild/src/app/game/game.component.ts:283 | The reload empties every round-scoped part: no player, no obstacle, empty drawing logs, and only the trail and obstacle layers on the stage. It keeps the round id and the sent commands, and the page's join is sent again. One frame has been drawn, and the invariant holds. |
| StaticObstacles.PaintObstacles | frontend/prebuild/src/app/game/game.component.ts:56-64 | Obstacle i appends a grey paint of its rectangle scaled by 5, after the old layer, which is kept. |
| StaticObstacles.PaintBatches | frontend/prebuild/src/app/game/game.component.ts:56-64 | Painting two batches equals painting their concatenation: the layer is cumulative and never reset. |
| StaticObstacles.DuplicateObstaclePaintsTwice | frontend/prebuild/src/app/game/game.component.ts:56-64 | Sending the same obstacle twice yields two entries. |
| MovingObstacles.Rebuild | frontend/prebuild/src/app/game/game.component.ts:67-91 | After a rebuild there is one tracked obstacle per incoming rectangle. Obstacle i sits at (5x_i, 5y_i) with the incoming size and has its own shape on the stage, distinct from every other obstacle's. Every old shape is off the stage, every other child stays, and nothing else joins. The trail is untouched, and the handle invariant is kept. |
| MovingObstacles.Reposition | frontend/prebuild/src/app/game/game.component.ts:92-98 | Without a rebuild the tracked list keeps its length. Obstacle i < n moves to (5x_i, 5y_i) and nothing else about it changes. Later obstacles are untouched. The trail gains, after its old contents, exactly one erase of rectangle i scaled by 5 per incoming rectangle, in order. The stage is not touched. |
| MovingObstacles.RepositionValid | frontend/prebuild/src/app/game/game.component.ts:92-98 | Moving obstacles keeps the handle invariant: no new shape is used. |
| MovingObstacles.SyncMovingObstacles | frontend/prebuild/src/app/game/game.component.ts:66-101 | The list is rebuilt iff none is tracked or the incoming list is longer; otherwise it is updated in place with the stage and handle counter unchanged. A list is always tracked afterwards, and the handle invariant is kept. |
| MovingObstacles.SyncReadsObstaclesOnly | frontend/prebuild/src/app/game/game.component.ts:66-101 | The branch reads only the tracked obstacles, the stage and the handle counter: two states that agree on those get the same obstacles and stage. |
| MovingObstacles.ResendIsStable | frontend/prebuild/src/app/game/game.component.ts:67-98 | Resending the same list never rebuilds. It leaves every obstacle and the stage as the first send left them. |
| PlayerList.RosterUpdate | frontend/prebuild/src/app/game/game.component.ts:114-120 | A roster entry never changes a player's name, colour, status or tooltip. The position becomes (5x, 5y) with the entry's direction unless the status is `Dead`, which keeps the stored position. The empty id ends invisible; other ids keep their visibility. |
| PlayerList.RosterEntry | frontend/prebuild/src/app/game/game.component.ts:105-121 | One entry adds exactly its id and leaves every other player as it was. A known player gets the roster update; an unknown id is first created with the entry's name, colour and status. |
| PlayerList.Roster | frontend/prebuild/src/app/game/game.component.ts:103-123 | After the roster the key set is the old one plus exactly the listed ids. Players the roster does not name are unchanged. |
| PlayerList.ApplyPlayerList | frontend/prebuild/src/app/game/game.component.ts:103-123 | The key set grows by exactly the listed ids. Every listed player is on the stage. Players the roster does not name are unchanged. |
| PlayerList.RosterKeepsIdentity | frontend/prebuild/src/app/game/game.component.ts:105-112 | An already tracked player keeps name, colour, status and tooltip whatever the roster says. |
| PlayerList.FirstSightSetsAttributes | frontend/prebuild/src/app/game/game.component.ts:105-112 | A new player's name, colour and status are those of the first roster entry with its id. |
| PlayerList.LastLivingEntryPlaces | frontend/prebuild/src/app/game/game.component.ts:114-115 | A player's position and direction come from the last entry with its id that is not `Dead`. |
| PlayerList.DeadEntriesKeepPosition | frontend/prebuild/src/app/game/game.component.ts:114-115 | If every entry for a tracked id is `Dead`, its position and direction are unchanged. |
| PlayerList.PlaceholderHidden | frontend/prebuild/src/app/game/game.component.ts:117-120 | The empty-id placeholder ends invisible once listed. |
| PlayerList.ReplayCreatesNothing | frontend/prebuild/src/app/game/game.component.ts:105-112 | Replaying a roster creates no player and changes no name, colour or status. |
| PlayerStatus.StatusUpdate | frontend/prebuild/src/app/game/game.component.ts:128-145 | The status becomes the entry's. `Alive` moves the player to (5x, 5y) with the entry's direction; any other status keeps the position. Not `Alive` with a false `alive` flag sets the tooltip to visible=false, alpha=1. Otherwise the tooltip is kept. Name, colour and visibility never change. |
| PlayerStatus.UpdateStatuses | frontend/prebuild/src/app/game/game.component.ts:126-146 | The status entries add no player and leave every player they do not name unchanged. |
| PlayerStatus.StatusesAt | frontend/prebuild/src/app/game/game.component.ts:127-145 | Each entry acts on its own player only. |
| PlayerStatus.RevealAll | frontend/prebuild/src/app/game/game.component.ts:147-152 | Every tracked player's tooltip becomes visible at alpha 1. Nothing else changes. |
| PlayerStatus.ApplyPlayers | frontend/prebuild/src/app/game/game.component.ts:124-154 | No player is added, and the trail grows by exactly the `Alive` entries' stamps and refreshes, in order. With no `Alive` entry (including an empty list), every tracked tooltip is visible at alpha 1, listed or not. An unnamed player changes at most its tooltip, and only in that case. |
| PlayerStatus.StampCentred | frontend/prebuild/src/app/game/game.component.ts:133-136 | The stamp square is centred on the player's bounding box scaled by 5. |
| PlayerStatus.StatusOfLastEntry | frontend/prebuild/src/app/game/game.component.ts:145 | Each player ends with the status of its last entry. |
| PlayerStatus.PositionOfLastAlive | frontend/prebuild/src/app/game/game.component.ts:128-130 | A player's position and direction come from its last `Alive` entry. |
| PlayerStatus.NotAliveKeepsPosition | frontend/prebuild/src/app/game/game.component.ts:128-130 | With no `Alive` entry for a player, its position and direction are unchanged. |
| PlayerStatus.HiddenByLastEntry | frontend/prebuild/src/app/game/game.component.ts:139-143 | A last entry that is not `Alive` and has a false `alive` flag leaves the tooltip hidden at alpha 1, whatever it was before. |
| PlayerStatus.TooltipOfDeadEntry | frontend/prebuild/src/app/game/game.component.ts:139-152 | Such a player's tooltip ends at alpha 1. It is hidden when some entry is `Alive` and revealed when none is. Its status is the entry's. |
| PlayerStatus.OneStampPerAliveEntry | frontend/prebuild/src/app/game/game.component.ts:128-138 | The trail gets exactly one stamp and one refresh per `Alive` entry. |
| PlayerStatus.StatusKeepsIdentity | frontend/prebuild/src/app/game/game.component.ts:126-146 | Status updates never change a player's name, colour or visibility. |
| StatusBadge.GetStatus | frontend/prebuild/src/app/game/game.component.ts:319-332 | A badge exists iff the status is one of the five known ones. `Connected` gets the primary style, `Alive` and `Winner` success, `Dead` danger, `Disconnected` secondary. |
| StatusBadge.ParseRoundTrip | frontend/prebuild/src/app/game/game.component.ts:321-330 | Every pill reads back as the style and text it was written with. |
| StatusBadge.BadgeShowsStatus | frontend/prebuild/src/app/game/game.component.ts:319-332 | A known status's badge reads back as that very status. |
| StatusBadge.BadgesDistinct | frontend/prebuild/src/app/game/game.component.ts:319-332 | Distinct known statuses get distinct badges. |
| Requeue.RouteFor | frontend/prebuild/src/app/game/game.component.ts:235-240 | The request goes direct iff the session says spectator or has no party id. Otherwise it goes to that party's queue. |
| Requeue.RequeueRequest | frontend/prebuild/src/app/game/game.component.ts:235-239 | A direct requeue sends exactly one `GAME_REQUEUE`. A queued one sends nothing on the game channel. |
| Requeue.EmptyPartyStillQueues | frontend/prebuild/src/app/game/game.component.ts:236-237 | An empty party id still goes to the queue, because only a missing id means no party. |

## Left out

- Synchronizer.Step: requires every `players` id to be tracked, or named by the same message's roster. The code dereferences the lookup and throws on an unknown id; the throw, and what RxJS does with the subscription afterwards, are not modelled.
- PlayerStatus.ApplyPlayers: requires every entry's id to be tracked, for the same reason. The player updates and the trail stamps are kept as two separate results, so the per-entry interleaving of the two is not modelled; neither reads the other.
- PlayerStatus.UpdateStatuses: requires every entry's id to be tracked, for the same reason.
- The `countdown` field and `startingCountdown`: their behaviour is uncancelled `setTimeout` timers, which is timing, not state.
- The queue-position `EventSource` in `requeue()`, router navigation, `sessionStorage` and `location.reload` itself: browser I/O. Session storage is the `roundId` field plus the `isSpectator`, `userId` and `partyId` values passed as parameters; the reload is the `reloadRequested` flag plus `GameState.Reload`.
- Keyboard-to-direction mapping, `startGame`, the `move*` commands, `ngOnDestroy`, and the viewport tag, party-id display and DOM lookups of `ngOnInit`: page plumbing. What `ngOnInit` does to the modelled state (the join, the two layers, the first frame) is `GameState.Initial`.
- `drawPlayer`, `drawObstacle`, `drawMovingObstacle`: the handler never calls them.
- Pixels, bitmap fills and stage z-order: the stage is a set of children, and the canvases are operation logs.
- The source of the `Player`, `Obstacle` and `PlayerTooltip` classes is not part of this model, so they are modelled as the plain records `Entities.Player`, `Entities.MovingObstacle` and `Entities.Tooltip`. `update` sets position and direction only, and `addTo` puts the player's sprite on the stage. The position, direction, visibility and tooltip of a freshly created player (`Entities.NewPlayer`) are defaults chosen here; no contract depends on them.
- Number formats: grid coordinates are unbounded integers, and the trail stamp's half-cell offsets are exact reals rather than JavaScript doubles.
- The OAuth wrapper of the authentication service: it has no logic of its own.

=== FILE: entities.dfy ===
/**
 The plain data of one round of the game client: players, obstacles, and the
 records that stand in for the drawing surfaces. The createjs display list,
 the off-screen trail canvas and the static-obstacle shape are replaced by
 logs of what was drawn on them.
 */
module Entities {
  import opened Wrappers

  /** Pixels per grid cell (`GameComponent.BOX_SIZE`). */
  const BoxSize: int := 5

  /** Fill colour of every obstacle (`GameComponent.OBSTACLE_COLOR`). */
  const ObstacleColor: string := "#808080"

  /** Side of the square off-screen trail buffer, in pixels. */
  const TrailBufferSize: int := 600

  /** The whole trail buffer, in pixels. */
  const TrailBuffer: Rect := Rect(0, 0, TrailBufferSize, TrailBufferSize)

  /** The status strings the server sends and the client compares against. */
  const Connected: string := "Connected"
  const Alive: string := "Alive"
  const Dead: string := "Dead"
  const Disconnected: string := "Disconnected"
  const Winner: string := "Winner"

  /** An axis-aligned rectangle: in grid cells on the wire, in pixels once scaled. */
  datatype Rect = Rect(x: int, y: int, width: int, height: int)

  /** A grid coordinate or length converted to pixels. */
  function Px(cells: int): int {
    cells * BoxSize
  }

  /** A grid rectangle converted to pixels. */
  function Scaled(r: Rect): Rect {
    Rect(Px(r.x), Px(r.y), Px(r.width), Px(r.height))
  }

  /** The name/status label drawn next to a player, with its own visibility and fade. */
  datatype Tooltip = Tooltip(visible: bool, alpha: real)

  /**
   A tracked player. `x` and `y` are the sprite position in pixels; `visible`
   is the sprite's own visibility, independent of the tooltip's.
   */
  datatype Player = Player(
    name: string,
    color: string,
    status: string,
    x: int,
    y: int,
    direction: string,
    visible: bool,
    tooltip: Tooltip)
  {
    /** `Player.update(x, y, direction)`: moves and turns the sprite, nothing else. */
    function Update(x': int, y': int, dir: string): Player {
      this.(x := x', y := y', direction := dir)
    }
  }

  /**
   A freshly constructed player carrying the attributes it is first seen with.
   The position, direction and visibility are the defaults of a new sprite.
   */
  function NewPlayer(name: string, color: string, status: string): Player {
    Player(name, color, status, 0, 0, "", true, Tooltip(false, 1.0))
  }

  /**
   A moving obstacle: its size in grid cells, the handle of the shape that
   draws it, and the shape's position in pixels.
   */
  datatype MovingObstacle = MovingObstacle(width: int, height: int, shape: nat, x: int, y: int)

  /** Things that can be children of the stage. */
  datatype Drawable =
    | TrailLayer
    | ObstacleLayer
    | ObstacleShape(handle: nat)
    | PlayerSprite(id: string)

  /** One filled rectangle in the static-obstacle layer (pixels). */
  datatype Paint = Paint(color: string, area: Rect)

  /** One operation on the off-screen trail buffer. */
  datatype TrailOp =
      /** fill a `BoxSize` x `BoxSize` square whose top-left corner is (x, y) */
    | Stamp(x: real, y: real, color: string)
      /** clear a rectangle in pixels */
    | Erase(area: Rect)
      /** refill the visible trail layer's `area` with the buffer's bitmap */
    | Materialize(area: Rect)

  /** Commands sent back to the server on the command channel. */
  datatype Command =
    | KeepAlive
    | GameRequeue
      /** a page with a game board joins as the player with this user id */
    | PlayerJoined(userId: Option<string>)
    | SpectatorJoined
}

=== FILE: game_state.dfy ===
/**
 The round-scoped state the message handler keeps, plus the session fields
 it touches (round id, pending reload, outbound commands, frames drawn).
 */
module GameState {
  import opened Wrappers
  import opened Entities

  datatype State = State(
    /** the round id kept in session storage */
    roundId: string,
    /** a page reload has been asked for and will discard the round */
    reloadRequested: bool,
    /** tracked players by id */
    players: map<string, Player>,
    /** the moving obstacles; `None` until the first `movingObstacles` field */
    obstacles: Option<seq<MovingObstacle>>,
    /** every rectangle ever painted into the static-obstacle layer */
    obstacleLayer: seq<Paint>,
    /** every operation ever applied to the trail buffer */
    trail: seq<TrailOp>,
    /** the current children of the stage */
    stage: set<Drawable>,
    /** the next unused moving-obstacle shape handle */
    nextHandle: nat,
    /** number of `stage.update()` calls */
    frames: nat,
    /** commands sent to the server */
    outbox: seq<Command>)

  /**
   The join `ngOnInit` sends (game.component.ts:172-180): a session flagged
   as spectator announces itself; any other session joins as a player, with
   the user id from session storage, possibly missing.
   */
  function JoinCommand(isSpectator: Option<string>, userId: Option<string>): (c: Command)
    ensures c.SpectatorJoined? <==> isSpectator == Some("true")
    ensures c.PlayerJoined? <==> isSpectator != Some("true")
    ensures c.PlayerJoined? ==> c.userId == userId
  {
    if isSpectator == Some("true") then SpectatorJoined else PlayerJoined(userId)
  }

  /**
   The state `ngOnInit` leaves for round `roundId` (game.component.ts:169-209):
   the join has been sent, the trail and obstacle layers are on the stage and
   one frame has been drawn; nothing of the round is known yet.
   */
  function Initial(roundId: string, isSpectator: Option<string>, userId: Option<string>): (r: State)
    ensures r.roundId == roundId && !r.reloadRequested
    ensures r.outbox == [JoinCommand(isSpectator, userId)] && r.frames == 1
    ensures r.players == map[] && r.obstacles == None && r.obstacleLayer == [] && r.trail == []
    ensures r.stage == {TrailLayer, ObstacleLayer}
    ensures Valid(r)
  {
    State(roundId, false, map[], None, [], [], {TrailLayer, ObstacleLayer}, 0, 1, [JoinCommand(isSpectator, userId)])
  }

  /**
   Every moving-obstacle handle in use, whether held by an obstacle or on the
   stage, was handed out before `nextHandle`; so handles taken from
   `nextHandle` on are fresh.
   */
  ghost predicate Valid(s: State) {
    && (s.obstacles.Some? ==>
          forall i :: 0 <= i < |s.obstacles.value| ==> s.obstacles.value[i].shape < s.nextHandle)
    && (forall h: nat :: ObstacleShape(h) in s.stage ==> h < s.nextHandle)
  }

  /**
   `processRequeue`: remember the new round id (also in session storage) and
   ask for a page reload. The reload is asynchronous, so nothing else changes yet.
   */
  function ProcessRequeue(s: State, newRoundId: string): (r: State)
    ensures r.roundId == newRoundId && r.reloadRequested
    ensures r == s.(roundId := r.roundId, reloadRequested := true)
  {
    s.(roundId := newRoundId, reloadRequested := true)
  }

  /**
   The page reload: every round-scoped thing is discarded and the page loads
   again for the round id in session storage, so it joins once more and draws
   its first frame. Commands already sent stay sent.
   */
  function Reload(s: State, isSpectator: Option<string>, userId: Option<string>): (r: State)
    ensures r.roundId == s.roundId && r.outbox == s.outbox + [JoinCommand(isSpectator, userId)]
    ensures r.players == map[] && r.obstacles == None && r.trail == [] && r.obstacleLayer == []
    ensures r.stage == {TrailLayer, ObstacleLayer}
    ensures r.frames == 1 && !r.reloadRequested && Valid(r)
  {
    var loaded := Initial(s.roundId, isSpectator, userId);
    loaded.(outbox := s.outbox + loaded.outbox)
  }
}

=== FILE: messages.dfy ===
/**
 The shape of one message on the push channel. Every field is optional; an
 absent array or string is `None`. `keepAlive` is `true` only when the
 server sent `keepAlive: true`.
 */
module Messages {
  import opened Wrappers
  import opened Entities

  /** An entry of `playerlist`: the roster, which creates players. */
  datatype ListEntry = ListEntry(
    id: string,
    name: string,
    color: string,
    status: string,
    x: int,
    y: int,
    direction: string)

  /** An entry of `players`: a status and position update for a known player. */
  datatype PlayerEntry = PlayerEntry(
    id: string,
    x: int,
    y: int,
    direction: string,
    color: string,
    width: int,
    height: int,
    status: string,
    alive: bool)

  datatype Message = Message(
    requeue: Option<string>,
    obstacles: Option<seq<Rect>>,
    movingObstacles: Option<seq<Rect>>,
    playerlist: Option<seq<ListEntry>>,
    players: Option<seq<PlayerEntry>>,
    keepAlive: bool)

  /** A message with no field set. */
  const EmptyMessage: Message := Message(None, None, None, None, None, false)

  /** `json.requeue` is truthy: present and not the empty string. */
  predicate RequeueRequested(m: Message) {
    m.requeue.Some? && m.requeue.value != ""
  }

  /** The ids named by a roster. */
  function ListIds(es: seq<ListEntry>): set<string> {
    set i | 0 <= i < |es| :: es[i].id
  }

  /** The ids named by a status update. */
  function EntryIds(es: seq<PlayerEntry>): set<string> {
    set i | 0 <= i < |es| :: es[i].id
  }
}

=== FILE: moving_obstacles.dfy ===
/**
 The `movingObstacles` field. The tracked list is rebuilt, with rebuilt shapes,
 when there is none yet or the incoming list is longer; otherwise the tracked
 obstacles are moved index by index and the trail buffer is cleared under
 each obstacle's new rectangle.
 */
module MovingObstacles {
  import opened Wrappers
  import opened Entities
  import opened GameState

  /** The incoming list replaces the tracked one (game.component.ts:67). */
  predicate Rebuilds(tracked: Option<seq<MovingObstacle>>, incoming: seq<Rect>) {
    tracked.None? || |tracked.value| < |incoming|
  }

  /** The stage children that draw the given obstacles. */
  function ShapesOf(obs: seq<MovingObstacle>): set<Drawable> {
    set i | 0 <= i < |obs| :: ObstacleShape(obs[i].shape)
  }

  /** The obstacles tracked so far, none before the first `movingObstacles` field. */
  function TrackedOf(s: State): seq<MovingObstacle> {
    if s.obstacles.Some? then s.obstacles.value else []
  }

  /** The trail clears of an update, one per incoming rectangle, in order. */
  function ErasesOf(incoming: seq<Rect>): (ops: seq<TrailOp>)
    ensures |ops| == |incoming|
    ensures forall i :: 0 <= i < |incoming| ==> ops[i] == Erase(Scaled(incoming[i]))
  {
    seq(|incoming|, i requires 0 <= i < |incoming| => Erase(Scaled(incoming[i])))
  }

  /** Obstacle `i` of a rebuild: a new shape with the next rebuilt handle, placed in pixels. */
  function Fresh(o: Rect, handle: nat): MovingObstacle {
    MovingObstacle(o.width, o.height, handle, Px(o.x), Px(o.y))
  }

  /**
   Removes the old shapes from the stage and tracks one new obstacle per
   incoming rectangle (game.component.ts:67-91): each placed in pixels, with
   its own new shape on the stage, and no old shape left behind.
   */
  function Rebuild(s: State, incoming: seq<Rect>): (r: State)
    requires Valid(s)
    ensures Valid(r)
    ensures r == s.(obstacles := r.obstacles, stage := r.stage, nextHandle := r.nextHandle)
    ensures r.obstacles.Some? && |r.obstacles.value| == |incoming|
    ensures forall i :: 0 <= i < |incoming| ==>
              var o := r.obstacles.value[i];
              && o.x == Px(incoming[i].x) && o.y == Px(incoming[i].y)
              && o.width == incoming[i].width && o.height == incoming[i].height
              && ObstacleShape(o.shape) in r.stage
    ensures forall i, j :: 0 <= i < j < |incoming| ==> r.obstacles.value[i].shape != r.obstacles.value[j].shape
    ensures s.obstacles.Some? ==> forall d :: d in ShapesOf(s.obstacles.value) ==> d !in r.stage
    // no other child of the stage is touched
    ensures forall d :: d in s.stage && d !in ShapesOf(TrackedOf(s)) ==> d in r.stage
    ensures forall d :: d in r.stage ==> d in s.stage || d in ShapesOf(r.obstacles.value)
  {
    var tracked := TrackedOf(s);
    var rebuilt := seq(|incoming|, i requires 0 <= i < |incoming| => Fresh(incoming[i], s.nextHandle + i));
    assert forall i :: 0 <= i < |incoming| ==> rebuilt[i].shape == s.nextHandle + i;
    s.(obstacles := Some(rebuilt),
       stage := (s.stage - ShapesOf(tracked)) + ShapesOf(rebuilt),
       nextHandle := s.nextHandle + |incoming|)
  }

  /**
   Moves tracked obstacle `i` to incoming rectangle `i` and clears the trail
   under it (game.component.ts:92-98); obstacles past the incoming list stay
   put, and the stage is not touched.
   */
  function Reposition(s: State, incoming: seq<Rect>): (r: State)
    requires s.obstacles.Some? && |incoming| <= |s.obstacles.value|
    ensures r == s.(obstacles := r.obstacles, trail := r.trail)
    ensures r.obstacles.Some? && |r.obstacles.value| == |s.obstacles.value|
    ensures forall i :: 0 <= i < |incoming| ==>
              r.obstacles.value[i] == s.obstacles.value[i].(x := Px(incoming[i].x), y := Px(incoming[i].y))
    ensures forall i :: |incoming| <= i < |s.obstacles.value| ==> r.obstacles.value[i] == s.obstacles.value[i]
    ensures r.trail == s.trail + ErasesOf(incoming)
  {
    var tracked := s.obstacles.value;
    var moved := seq(|tracked|, i requires 0 <= i < |tracked| =>
                   if i < |incoming| then tracked[i].(x := Px(incoming[i].x), y := Px(incoming[i].y))
                   else tracked[i]);
    s.(obstacles := Some(moved), trail := s.trail + ErasesOf(incoming))
  }

  /** Repositioning keeps the invariant: the shapes are the ones already tracked. */
  lemma RepositionValid(s: State, incoming: seq<Rect>)
    requires Valid(s) && s.obstacles.Some? && |incoming| <= |s.obstacles.value|
    ensures Valid(Reposition(s, incoming))
  {
    var r := Reposition(s, incoming);
    forall i | 0 <= i < |r.obstacles.value| ensures r.obstacles.value[i].shape < r.nextHandle {
      assert r.obstacles.value[i].shape == s.obstacles.value[i].shape;
    }
  }

  /** The whole `movingObstacles` branch (game.component.ts:66-101): a rebuild or an update. */
  function SyncMovingObstacles(s: State, incoming: seq<Rect>): (r: State)
    requires Valid(s)
    ensures Valid(r)
    ensures r.obstacles.Some?
    ensures Rebuilds(s.obstacles, incoming) ==> r == Rebuild(s, incoming) && r.trail == s.trail
    ensures !Rebuilds(s.obstacles, incoming) ==>
              r == Reposition(s, incoming) && r.stage == s.stage && r.nextHandle == s.nextHandle
    ensures r == s.(obstacles := r.obstacles, stage := r.stage, trail := r.trail, nextHandle := r.nextHandle)
  {
    if Rebuilds(s.obstacles, incoming) then Rebuild(s, incoming)
    else
      RepositionValid(s, incoming);
      Reposition(s, incoming)
  }

  /**
   The branch reads only the tracked obstacles, the stage and the handle
   counter: states that agree on those get the same obstacles and stage.
   */
  lemma SyncReadsObstaclesOnly(s: State, t: State, incoming: seq<Rect>)
    requires Valid(s) && Valid(t)
    requires s.obstacles == t.obstacles && s.stage == t.stage && s.nextHandle == t.nextHandle
    ensures SyncMovingObstacles(s, incoming).obstacles == SyncMovingObstacles(t, incoming).obstacles
    ensures SyncMovingObstacles(s, incoming).stage == SyncMovingObstacles(t, incoming).stage
  {
  }

  /**
   Sending the same list twice: the second time nothing is rebuilt, every
   obstacle stays where the first put it, and the stage is left alone.
   */
  lemma ResendIsStable(s: State, incoming: seq<Rect>)
    requires Valid(s)
    ensures var t := SyncMovingObstacles(s, incoming);
            var u := SyncMovingObstacles(t, incoming);
            && !Rebuilds(t.obstacles, incoming)
            && u.obstacles == t.obstacles
            && u.stage == t.stage
  {
    var t := SyncMovingObstacles(s, incoming);
    assert t.obstacles.Some? && |incoming| <= |t.obstacles.value|;
    assert Valid(t);
    var u := Reposition(t, incoming);
    assert SyncMovingObstacles(t, incoming) == u;
    forall i | 0 <= i < |incoming|
      ensures t.obstacles.value[i].x == Px(incoming[i].x) && t.obstacles.value[i].y == Px(incoming[i].y)
    {
    }
    assert u.obstacles.value == t.obstacles.value;
  }
}

=== FILE: player_list.dfy ===
/**
 The `playerlist` field: the roster. A player is created the first time its
 id is seen, with the name, colour and status of that entry; after that the
 roster only moves players (unless the entry says `Dead`), hides the
 placeholder with the empty id, and puts every listed player on the stage.
 */
module PlayerList {
  import opened Entities
  import opened Messages
  import opened GameState

  /** Entry `i` is the first mention of its id. */
  predicate FirstMention(es: seq<ListEntry>, i: int) {
    0 <= i < |es| && forall j :: 0 <= j < i ==> es[j].id != es[i].id
  }

  /** Entry `i` is not `Dead`, and every later entry with its id is `Dead`. */
  predicate LastMove(es: seq<ListEntry>, i: int) {
    && 0 <= i < |es|
    && es[i].status != Dead
    && forall j :: i < j < |es| && es[j].id == es[i].id ==> es[j].status == Dead
  }

  /** What one roster entry does to the player it names (game.component.ts:105-120). */
  function RosterUpdate(known: Player, e: ListEntry): (q: Player)
    ensures q.name == known.name && q.color == known.color && q.status == known.status
    ensures q.tooltip == known.tooltip
    ensures e.status != Dead ==> q.x == Px(e.x) && q.y == Px(e.y) && q.direction == e.direction
    ensures e.status == Dead ==> q.x == known.x && q.y == known.y && q.direction == known.direction
    ensures e.id == "" ==> !q.visible
    ensures e.id != "" ==> q.visible == known.visible
  {
    var moved := if e.status != Dead then known.Update(Px(e.x), Px(e.y), e.direction) else known;
    if e.id == "" then moved.(visible := false) else moved
  }

  /**
   One roster entry on the player map: look the id up, create the player on
   first sight, then apply `RosterUpdate`.
   */
  function RosterEntry(players: map<string, Player>, e: ListEntry): (r: map<string, Player>)
    ensures r.Keys == players.Keys + {e.id}
    ensures forall id :: id in players && id != e.id ==> r[id] == players[id]
    ensures e.id in players ==> r[e.id] == RosterUpdate(players[e.id], e)
    ensures e.id !in players ==> r[e.id] == RosterUpdate(NewPlayer(e.name, e.color, e.status), e)
  {
    var known := if e.id in players then players[e.id] else NewPlayer(e.name, e.color, e.status);
    players[e.id := RosterUpdate(known, e)]
  }

  lemma ListIdsSnoc(es: seq<ListEntry>)
    requires |es| > 0
    ensures ListIds(es) == ListIds(es[..|es| - 1]) + {es[|es| - 1].id}
  {
    var front := es[..|es| - 1];
    forall id | id in ListIds(es) ensures id in ListIds(front) + {es[|es| - 1].id} {
      var i :| 0 <= i < |es| && es[i].id == id;
      if i < |es| - 1 {
        assert front[i].id == id;
      }
    }
    forall id | id in ListIds(front) ensures id in ListIds(es) {
      var i :| 0 <= i < |front| && front[i].id == id;
      assert es[i].id == id;
    }
  }

  /**
   The roster entries in order: the key set grows by exactly the listed ids,
   and players the roster does not name are untouched.
   */
  function Roster(players: map<string, Player>, es: seq<ListEntry>): (r: map<string, Player>)
    ensures r.Keys == players.Keys + ListIds(es)
    ensures forall id :: id in players && id !in ListIds(es) ==> r[id] == players[id]
    decreases |es|
  {
    if |es| == 0 then players
    else
      ListIdsSnoc(es);
      RosterEntry(Roster(players, es[..|es| - 1]), es[|es| - 1])
  }

  /** The sprites of the listed players. */
  function SpritesOf(es: seq<ListEntry>): set<Drawable> {
    set id | id in ListIds(es) :: PlayerSprite(id)
  }

  /**
   The whole `playerlist` branch (game.component.ts:103-123): the roster
   applied to the player map, and every listed player put on the stage.
   */
  function ApplyPlayerList(s: State, es: seq<ListEntry>): (r: State)
    ensures r.players.Keys == s.players.Keys + ListIds(es)
    ensures r.stage == s.stage + SpritesOf(es)
    ensures forall id :: id in s.players && id !in ListIds(es) ==> r.players[id] == s.players[id]
    ensures r == s.(players := r.players, stage := r.stage)
  {
    s.(players := Roster(s.players, es), stage := s.stage + SpritesOf(es))
  }

  /** The last entry of a roster acts on one player; the others see what the front left. */
  lemma RosterAt(players: map<string, Player>, es: seq<ListEntry>, id: string)
    requires |es| > 0 && id in Roster(players, es)
    ensures var t := Roster(players, es[..|es| - 1]);
            var e := es[|es| - 1];
            Roster(players, es)[id] ==
              if e.id != id then t[id]
              else if id in t then RosterUpdate(t[id], e)
              else RosterUpdate(NewPlayer(e.name, e.color, e.status), e)
  {
  }

  /** A player already tracked keeps its name, colour, status and tooltip whatever the roster says. */
  lemma {:induction false} RosterKeepsIdentity(players: map<string, Player>, es: seq<ListEntry>, id: string)
    requires id in players
    ensures id in Roster(players, es)
    ensures var p, q := players[id], Roster(players, es)[id];
            q.name == p.name && q.color == p.color && q.status == p.status && q.tooltip == p.tooltip
    decreases |es|
  {
    if |es| > 0 {
      RosterKeepsIdentity(players, es[..|es| - 1], id);
      RosterIdentityStep(players, es, id);
    }
  }

  lemma FirstMentionInFront(es: seq<ListEntry>, i: int)
    requires FirstMention(es, i) && i < |es| - 1
    ensures FirstMention(es[..|es| - 1], i)
  {
    var front := es[..|es| - 1];
    assert front[i] == es[i];
    forall j | 0 <= j < i ensures front[j].id != front[i].id {
      assert front[j] == es[j];
    }
  }

  lemma FirstMentionUnseen(es: seq<ListEntry>, i: int)
    requires FirstMention(es, i) && i == |es| - 1
    ensures es[i].id !in ListIds(es[..i])
  {
    var front := es[..i];
    forall j | 0 <= j < |front| ensures front[j].id != es[i].id {
      assert front[j] == es[j];
    }
  }

  lemma LastMoveInFront(es: seq<ListEntry>, i: int)
    requires LastMove(es, i) && i < |es| - 1
    ensures LastMove(es[..|es| - 1], i)
    ensures es[|es| - 1].id == es[i].id ==> es[|es| - 1].status == Dead
  {
    var front := es[..|es| - 1];
    forall j | i < j < |front| && front[j].id == front[i].id ensures front[j].status == Dead {
      assert front[j] == es[j] && front[i] == es[i];
    }
  }

  /** A player tracked before the last roster entry keeps its name, colour, status and tooltip through it. */
  lemma RosterIdentityStep(players: map<string, Player>, es: seq<ListEntry>, id: string)
    requires |es| > 0 && id in Roster(players, es[..|es| - 1])
    ensures id in Roster(players, es)
    ensures var p, q := Roster(players, es[..|es| - 1])[id], Roster(players, es)[id];
            q.name == p.name && q.color == p.color && q.status == p.status && q.tooltip == p.tooltip
  {
    RosterAt(players, es, id);
  }

  /** The last roster entry creates its player, if unseen so far, with the entry's attributes. */
  lemma RosterCreateLast(players: map<string, Player>, es: seq<ListEntry>)
    requires |es| > 0 && es[|es| - 1].id !in Roster(players, es[..|es| - 1])
    ensures var e := es[|es| - 1];
            e.id in Roster(players, es)
            && Roster(players, es)[e.id].name == e.name
            && Roster(players, es)[e.id].color == e.color
            && Roster(players, es)[e.id].status == e.status
  {
    ListIdsSnoc(es);
    RosterAt(players, es, es[|es| - 1].id);
  }

  /** A player first seen in this roster takes its name, colour and status from its first entry. */
  lemma {:induction false} FirstSightSetsAttributes(players: map<string, Player>, es: seq<ListEntry>, i: int)
    requires FirstMention(es, i) && es[i].id !in players
    ensures es[i].id in Roster(players, es)
    ensures var q := Roster(players, es)[es[i].id];
            q.name == es[i].name && q.color == es[i].color && q.status == es[i].status
    decreases |es|
  {
    var n := |es| - 1;
    var id := es[i].id;
    if i < n {
      var front := es[..n];
      FirstMentionInFront(es, i);
      assert front[i] == es[i];
      FirstSightSetsAttributes(players, front, i);
      RosterIdentityStep(players, es, id);
    } else {
      FirstMentionUnseen(es, i);
      assert id !in Roster(players, es[..n]);
      RosterCreateLast(players, es);
    }
  }

  /** The last roster entry moves only its own player, and only when it is not `Dead`. */
  lemma RosterMoveStep(players: map<string, Player>, es: seq<ListEntry>, id: string)
    requires |es| > 0 && id in Roster(players, es[..|es| - 1])
    ensures id in Roster(players, es)
    ensures var p, q := Roster(players, es[..|es| - 1])[id], Roster(players, es)[id];
            var e := es[|es| - 1];
            e.id != id || e.status == Dead ==> q.x == p.x && q.y == p.y && q.direction == p.direction
  {
    RosterAt(players, es, id);
  }

  /** The last roster entry, when not `Dead`, places its player. */
  lemma RosterMoveLast(players: map<string, Player>, es: seq<ListEntry>)
    requires |es| > 0 && es[|es| - 1].status != Dead
    ensures var e := es[|es| - 1];
            e.id in Roster(players, es)
            && Roster(players, es)[e.id].x == Px(e.x)
            && Roster(players, es)[e.id].y == Px(e.y)
            && Roster(players, es)[e.id].direction == e.direction
  {
    ListIdsSnoc(es);
    RosterAt(players, es, es[|es| - 1].id);
  }

  /** The position and direction come from the last entry of the id that is not `Dead`. */
  lemma {:induction false} LastLivingEntryPlaces(players: map<string, Player>, es: seq<ListEntry>, i: int)
    requires LastMove(es, i)
    ensures es[i].id in Roster(players, es)
    ensures var q := Roster(players, es)[es[i].id];
            q.x == Px(es[i].x) && q.y == Px(es[i].y) && q.direction == es[i].direction
    decreases |es|
  {
    var n := |es| - 1;
    if i < n {
      LastMoveInFront(es, i);
      LastLivingEntryPlaces(players, es[..n], i);
      RosterMoveStep(players, es, es[i].id);
    } else {
      RosterMoveLast(players, es);
    }
  }

  /** Entries that all say `Dead` leave a tracked player where it was. */
  lemma {:induction false} DeadEntriesKeepPosition(players: map<string, Player>, es: seq<ListEntry>, id: string)
    requires id in players
    requires forall i :: 0 <= i < |es| && es[i].id == id ==> es[i].status == Dead
    ensures id in Roster(players, es)
    ensures var p, q := players[id], Roster(players, es)[id];
            q.x == p.x && q.y == p.y && q.direction == p.direction
    decreases |es|
  {
    if |es| > 0 {
      var front := es[..|es| - 1];
      assert forall i :: 0 <= i < |front| && front[i].id == id ==> front[i].status == Dead by {
        forall i | 0 <= i < |front| && front[i].id == id ensures front[i].status == Dead {
          assert es[i] == front[i];
        }
      }
      DeadEntriesKeepPosition(players, front, id);
      RosterAt(players, es, id);
    }
  }

  /** The placeholder with the empty id is invisible once the roster names it. */
  lemma {:induction false} PlaceholderHidden(players: map<string, Player>, es: seq<ListEntry>)
    requires "" in ListIds(es)
    ensures "" in Roster(players, es) && !Roster(players, es)[""].visible
    decreases |es|
  {
    var n := |es| - 1;
    ListIdsSnoc(es);
    RosterAt(players, es, "");
    if es[n].id != "" {
      PlaceholderHidden(players, es[..n]);
    }
  }

  /** Replaying a roster creates nobody and re-sets no name, colour or status. */
  lemma ReplayCreatesNothing(players: map<string, Player>, es: seq<ListEntry>)
    ensures var t := Roster(players, es);
            var u := Roster(t, es);
            && u.Keys == t.Keys
            && forall id :: id in t ==>
                 u[id].name == t[id].name && u[id].color == t[id].color && u[id].status == t[id].status
  {
    var t := Roster(players, es);
    forall id | id in t
      ensures var u := Roster(t, es);
              u[id].name == t[id].name && u[id].color == t[id].color && u[id].status == t[id].status
    {
      RosterKeepsIdentity(t, es, id);
    }
  }
}

=== FILE: player_status.dfy ===
/**
 The `players` field: status updates for players the roster already
 created. An `Alive` entry moves its player and stamps the trail buffer; a
 non-`Alive` entry whose `alive` flag is false hides the tooltip at full
 opacity; every entry then overwrites the status. If no entry is `Alive`,
 the round is over and every tracked player's tooltip is revealed.
 */
module PlayerStatus {
  import opened Entities
  import opened Messages
  import opened GameState

  /** Every entry names a tracked player (the handler dereferences the lookup). */
  predicate AllTracked(players: map<string, Player>, es: seq<PlayerEntry>) {
    forall i :: 0 <= i < |es| ==> es[i].id in players
  }

  /** No entry is `Alive`: the end-of-round condition. */
  predicate NoneAlive(es: seq<PlayerEntry>) {
    forall i :: 0 <= i < |es| ==> es[i].status != Alive
  }

  /** Entry `i` is the last mention of its id. */
  predicate LastMention(es: seq<PlayerEntry>, i: int) {
    0 <= i < |es| && forall j :: i < j < |es| ==> es[j].id != es[i].id
  }

  /** Entry `i` is `Alive`, and no later entry with its id is. */
  predicate LastAlive(es: seq<PlayerEntry>, i: int) {
    && 0 <= i < |es|
    && es[i].status == Alive
    && forall j :: i < j < |es| && es[j].id == es[i].id ==> es[j].status != Alive
  }

  /**
   The trail stamp of an `Alive` entry: a `BoxSize` square centred on the
   player's bounding box, in the colour the entry carries.
   */
  function StampOf(e: PlayerEntry): TrailOp {
    var half := BoxSize as real / 2.0;
    Stamp(Px(e.x) as real + Px(e.width) as real / 2.0 - half,
          Px(e.y) as real + Px(e.height) as real / 2.0 - half,
          e.color)
  }

  /** The stamp's centre is the centre of the player's box, scaled to pixels. */
  lemma StampCentred(e: PlayerEntry)
    ensures var t := StampOf(e);
            var half := BoxSize as real / 2.0;
            && t.x + half == Px(e.x) as real + Px(e.width) as real / 2.0
            && t.y + half == Px(e.y) as real + Px(e.height) as real / 2.0
  {
  }

  /** The trail operations of one entry: a stamp and a refresh of the visible layer if `Alive`. */
  function EntryTrail(e: PlayerEntry): seq<TrailOp> {
    if e.status == Alive then [StampOf(e), Materialize(TrailBuffer)] else []
  }

  /** The trail operations of a whole list, in order. */
  function TrailOf(es: seq<PlayerEntry>): seq<TrailOp> {
    if |es| == 0 then [] else EntryTrail(es[0]) + TrailOf(es[1..])
  }

  lemma EntryIdsSnoc(es: seq<PlayerEntry>)
    requires |es| > 0
    ensures EntryIds(es) == EntryIds(es[..|es| - 1]) + {es[|es| - 1].id}
  {
    var front := es[..|es| - 1];
    forall id | id in EntryIds(es) ensures id in EntryIds(front) + {es[|es| - 1].id} {
      var i :| 0 <= i < |es| && es[i].id == id;
      if i < |front| { assert front[i] == es[i]; }
    }
    forall id | id in EntryIds(front) ensures id in EntryIds(es) {
      var i :| 0 <= i < |front| && front[i].id == id;
      assert es[i] == front[i];
    }
  }

  /**
   What one status entry does to its player (game.component.ts:128-145): an
   `Alive` entry moves it; otherwise a false `alive` flag hides the tooltip
   at full opacity; in every case the status is overwritten last.
   */
  function StatusUpdate(p: Player, e: PlayerEntry): (q: Player)
    ensures q.status == e.status
    ensures q.name == p.name && q.color == p.color && q.visible == p.visible
    ensures e.status == Alive ==> q.x == Px(e.x) && q.y == Px(e.y) && q.direction == e.direction
    ensures e.status != Alive ==> q.x == p.x && q.y == p.y && q.direction == p.direction
    ensures e.status != Alive && !e.alive ==> q.tooltip == Tooltip(false, 1.0)
    ensures e.status == Alive || e.alive ==> q.tooltip == p.tooltip
  {
    var touched :=
      if e.status == Alive then p.Update(Px(e.x), Px(e.y), e.direction)
      else if !e.alive then p.(tooltip := Tooltip(false, 1.0))
      else p;
    touched.(status := e.status)
  }

  lemma AllTrackedFront(players: map<string, Player>, es: seq<PlayerEntry>)
    requires AllTracked(players, es) && |es| > 0
    ensures AllTracked(players, es[..|es| - 1]) && es[|es| - 1].id in players
  {
    var front := es[..|es| - 1];
    forall j | 0 <= j < |front| ensures front[j].id in players {
      assert front[j] == es[j];
    }
  }

  /**
   The entries in order on the player map: no player is added and players
   the list does not name are untouched.
   */
  function UpdateStatuses(players: map<string, Player>, es: seq<PlayerEntry>): (r: map<string, Player>)
    requires AllTracked(players, es)
    ensures r.Keys == players.Keys
    ensures forall id :: id in players && id !in EntryIds(es) ==> r[id] == players[id]
    decreases |es|
  {
    if |es| == 0 then players
    else
      var e := es[|es| - 1];
      AllTrackedFront(players, es);
      EntryIdsSnoc(es);
      var t := UpdateStatuses(players, es[..|es| - 1]);
      t[e.id := StatusUpdate(t[e.id], e)]
  }

  /** The last entry acts on its own player only. */
  lemma StatusesAt(players: map<string, Player>, es: seq<PlayerEntry>, id: string)
    requires AllTracked(players, es) && |es| > 0 && id in players
    ensures AllTracked(players, es[..|es| - 1])
    ensures var t := UpdateStatuses(players, es[..|es| - 1]);
            var e := es[|es| - 1];
            && id in t
            && UpdateStatuses(players, es)[id] == (if e.id == id then StatusUpdate(t[id], e) else t[id])
  {
    AllTrackedFront(players, es);
  }

  /** The end-of-round reveal: every tooltip fully opaque and visible, nothing else touched. */
  function RevealAll(players: map<string, Player>): (r: map<string, Player>)
    ensures r.Keys == players.Keys
    ensures forall id :: id in r ==> r[id] == players[id].(tooltip := Tooltip(true, 1.0))
  {
    map id | id in players :: players[id].(tooltip := Tooltip(true, 1.0))
  }

  /**
   The whole `players` branch (game.component.ts:124-154). It never adds a
   player, logs exactly the trail of the `Alive` entries, and when none is
   `Alive` every tracked tooltip ends visible at full opacity, whether or not
   the list names that player, and also for an empty list. The player map
   and the trail are independent, so the per-entry interleaving of their
   updates is not kept.
   */
  function ApplyPlayers(s: State, es: seq<PlayerEntry>): (r: State)
    requires AllTracked(s.players, es)
    ensures r.players.Keys == s.players.Keys
    ensures r == s.(players := r.players, trail := r.trail)
    ensures r.trail == s.trail + TrailOf(es)
    ensures NoneAlive(es) ==> forall id :: id in r.players ==> r.players[id].tooltip == Tooltip(true, 1.0)
    ensures forall id :: id in s.players && id !in EntryIds(es) ==>
              var p, q := s.players[id], r.players[id];
              q == p.(tooltip := q.tooltip) && (!NoneAlive(es) ==> q.tooltip == p.tooltip)
  {
    var t := UpdateStatuses(s.players, es);
    s.(players := if NoneAlive(es) then RevealAll(t) else t, trail := s.trail + TrailOf(es))
  }

  /** Status updates never change a player's name, colour or sprite visibility. */
  lemma {:induction false} StatusKeepsIdentity(players: map<string, Player>, es: seq<PlayerEntry>, id: string)
    requires AllTracked(players, es) && id in players
    ensures var p, q := players[id], UpdateStatuses(players, es)[id];
            q.name == p.name && q.color == p.color && q.visible == p.visible
    decreases |es|
  {
    if |es| > 0 {
      StatusesAt(players, es, id);
      StatusKeepsIdentity(players, es[..|es| - 1], id);
    }
  }

  lemma LastMentionInFront(es: seq<PlayerEntry>, i: int)
    requires LastMention(es, i) && i < |es| - 1
    ensures LastMention(es[..|es| - 1], i)
    ensures es[|es| - 1].id != es[i].id
  {
    var front := es[..|es| - 1];
    forall j | i < j < |front| ensures front[j].id != front[i].id {
      assert front[j] == es[j] && front[i] == es[i];
    }
  }

  lemma LastAliveInFront(es: seq<PlayerEntry>, i: int)
    requires LastAlive(es, i) && i < |es| - 1
    ensures LastAlive(es[..|es| - 1], i)
    ensures es[|es| - 1].id == es[i].id ==> es[|es| - 1].status != Alive
  {
    var front := es[..|es| - 1];
    forall j | i < j < |front| && front[j].id == front[i].id ensures front[j].status != Alive {
      assert front[j] == es[j] && front[i] == es[i];
    }
  }

  /** Each id ends with the status of its last entry. */
  lemma {:induction false} StatusOfLastEntry(players: map<string, Player>, es: seq<PlayerEntry>, i: int)
    requires AllTracked(players, es) && LastMention(es, i)
    ensures UpdateStatuses(players, es)[es[i].id].status == es[i].status
    decreases |es|
  {
    var n := |es| - 1;
    StatusesAt(players, es, es[i].id);
    if i < n {
      LastMentionInFront(es, i);
      StatusOfLastEntry(players, es[..n], i);
    }
  }

  /** The position and direction come from the last `Alive` entry of the id. */
  lemma {:induction false} PositionOfLastAlive(players: map<string, Player>, es: seq<PlayerEntry>, i: int)
    requires AllTracked(players, es) && LastAlive(es, i)
    ensures var q := UpdateStatuses(players, es)[es[i].id];
            q.x == Px(es[i].x) && q.y == Px(es[i].y) && q.direction == es[i].direction
    decreases |es|
  {
    var n := |es| - 1;
    StatusesAt(players, es, es[i].id);
    if i < n {
      LastAliveInFront(es, i);
      PositionOfLastAlive(players, es[..n], i);
    }
  }

  /** Entries none of which is `Alive` leave a player where it was. */
  lemma {:induction false} NotAliveKeepsPosition(players: map<string, Player>, es: seq<PlayerEntry>, id: string)
    requires AllTracked(players, es) && id in players
    requires forall i :: 0 <= i < |es| && es[i].id == id ==> es[i].status != Alive
    ensures var p, q := players[id], UpdateStatuses(players, es)[id];
            q.x == p.x && q.y == p.y && q.direction == p.direction
    decreases |es|
  {
    if |es| > 0 {
      var front := es[..|es| - 1];
      StatusesAt(players, es, id);
      assert forall i :: 0 <= i < |front| && front[i].id == id ==> front[i].status != Alive by {
        forall i | 0 <= i < |front| && front[i].id == id ensures front[i].status != Alive {
          assert front[i] == es[i];
        }
      }
      NotAliveKeepsPosition(players, front, id);
    }
  }

  /**
   A player whose last entry is not `Alive` and has a false `alive` flag ends
   with its tooltip at full opacity: hidden when another entry is `Alive`,
   revealed when none is.
   */
  lemma TooltipOfDeadEntry(s: State, es: seq<PlayerEntry>, i: int)
    requires AllTracked(s.players, es) && LastMention(es, i)
    requires es[i].status != Alive && !es[i].alive
    ensures var q := ApplyPlayers(s, es).players[es[i].id];
            q.tooltip == Tooltip(NoneAlive(es), 1.0) && q.status == es[i].status
  {
    StatusOfLastEntry(s.players, es, i);
    HiddenByLastEntry(s.players, es, i);
  }

  /** A last entry that is not `Alive`, with a false `alive` flag, hides the tooltip at full opacity. */
  lemma {:induction false} HiddenByLastEntry(players: map<string, Player>, es: seq<PlayerEntry>, i: int)
    requires AllTracked(players, es) && LastMention(es, i)
    requires es[i].status != Alive && !es[i].alive
    ensures UpdateStatuses(players, es)[es[i].id].tooltip == Tooltip(false, 1.0)
    decreases |es|
  {
    var n := |es| - 1;
    StatusesAt(players, es, es[i].id);
    if i < n {
      LastMentionInFront(es, i);
      HiddenByLastEntry(players, es[..n], i);
    }
  }

  /** Number of `Alive` entries. */
  function CountAlive(es: seq<PlayerEntry>): nat {
    if |es| == 0 then 0 else (if es[0].status == Alive then 1 else 0) + CountAlive(es[1..])
  }

  /** Number of stamps in a trail log. */
  function CountStamps(ops: seq<TrailOp>): nat {
    if |ops| == 0 then 0 else (if ops[0].Stamp? then 1 else 0) + CountStamps(ops[1..])
  }

  lemma {:induction false} CountStampsAppend(a: seq<TrailOp>, b: seq<TrailOp>)
    ensures CountStamps(a + b) == CountStamps(a) + CountStamps(b)
    decreases |a|
  {
    if |a| > 0 {
      var ab := a + b;
      assert ab[1..] == a[1..] + b;
      assert ab[0] == a[0];
      assert CountStamps(ab) == (if a[0].Stamp? then 1 else 0) + CountStamps(ab[1..]);
      CountStampsAppend(a[1..], b);
    } else {
      assert a + b == b;
    }
  }

  /**
   Every `Alive` entry stamps the trail exactly once and refreshes the
   visible layer exactly once; no other entry touches the trail.
   */
  lemma {:induction false} OneStampPerAliveEntry(es: seq<PlayerEntry>)
    ensures CountStamps(TrailOf(es)) == CountAlive(es)
    ensures |TrailOf(es)| == 2 * CountAlive(es)
    decreases |es|
  {
    if |es| > 0 {
      OneStampPerAliveEntry(es[1..]);
      CountStampsAppend(EntryTrail(es[0]), TrailOf(es[1..]));
      if es[0].status == Alive {
        assert CountStamps(EntryTrail(es[0])) == 1 by {
          assert EntryTrail(es[0])[1..] == [Materialize(TrailBuffer)];
          assert [Materialize(TrailBuffer)][1..] == [];
        }
      }
    }
  }
}

=== FILE: requeue.dfy ===
/**
 The routing decision of `requeue()` (game.component.ts:235-239): a
 spectator, or a player with no party, asks the server to requeue directly;
 a player in a party waits in the party's queue instead.
 */
module Requeue {
  import opened Wrappers
  import opened Entities
  import opened GameState

  datatype Route =
      /** send `GAME_REQUEUE` and wait for a `requeue` message */
    | Direct
      /** open the queue-position stream of this party */
    | Queue(partyId: string)

  /**
   `isSpectator` and `partyId` are the session-storage values, `None` when
   the key is absent.
   */
  function RouteFor(isSpectator: Option<string>, partyId: Option<string>): (r: Route)
    ensures r.Direct? <==> isSpectator == Some("true") || partyId.None?
    ensures r.Queue? ==> partyId == Some(r.partyId)
  {
    if isSpectator == Some("true") || partyId.None? then Direct else Queue(partyId.value)
  }

  /**
   The state effect of `requeue()`: a direct requeue sends exactly one
   `GAME_REQUEUE`; a queued one sends nothing on the game channel.
   */
  function RequeueRequest(s: State, isSpectator: Option<string>, partyId: Option<string>): (r: State)
    ensures r == s.(outbox := r.outbox)
    ensures isSpectator == Some("true") || partyId.None? ==> r.outbox == s.outbox + [GameRequeue]
    ensures isSpectator != Some("true") && partyId.Some? ==> r.outbox == s.outbox
  {
    match RouteFor(isSpectator, partyId)
    case Direct => s.(outbox := s.outbox + [GameRequeue])
    case Queue(_) => s
  }

  /** An empty party id is still a party: only its absence means "no party". */
  lemma EmptyPartyStillQueues(isSpectator: Option<string>)
    requires isSpectator != Some("true")
    ensures RouteFor(isSpectator, Some("")) == Queue("")
  {
  }
}

=== FILE: static_obstacles.dfy ===
/**
 The `obstacles` field: every static obstacle is painted grey into the
 obstacle layer, scaled to pixels. The layer is never cleared, so the layer
 only grows.
 */
module StaticObstacles {
  import opened Entities
  import opened GameState

  /** The paint one incoming obstacle leaves in the layer. */
  function PaintOf(o: Rect): Paint {
    Paint(ObstacleColor, Scaled(o))
  }

  /** Paints the incoming obstacles one after another, in order. */
  function PaintObstacles(s: State, incoming: seq<Rect>): (r: State)
    ensures |r.obstacleLayer| == |s.obstacleLayer| + |incoming|
    ensures r.obstacleLayer[..|s.obstacleLayer|] == s.obstacleLayer
    ensures forall i :: 0 <= i < |incoming| ==>
              r.obstacleLayer[|s.obstacleLayer| + i] == Paint(ObstacleColor, Scaled(incoming[i]))
    ensures r == s.(obstacleLayer := r.obstacleLayer)
    decreases |incoming|
  {
    if |incoming| == 0 then s
    else PaintObstacles(s.(obstacleLayer := s.obstacleLayer + [PaintOf(incoming[0])]), incoming[1..])
  }

  /** Painting two batches is painting their concatenation: nothing is ever reset. */
  lemma {:induction false} PaintBatches(s: State, a: seq<Rect>, b: seq<Rect>)
    ensures PaintObstacles(PaintObstacles(s, a), b) == PaintObstacles(s, a + b)
    decreases |a|
  {
    if |a| == 0 {
      assert a + b == b;
    } else {
      var s' := s.(obstacleLayer := s.obstacleLayer + [PaintOf(a[0])]);
      assert (a + b)[0] == a[0] && (a + b)[1..] == a[1..] + b;
      PaintBatches(s', a[1..], b);
    }
  }

  /** Re-sending an obstacle paints it again: the layer holds one entry per send. */
  lemma DuplicateObstaclePaintsTwice(s: State, o: Rect)
    ensures var r := PaintObstacles(s, [o, o]);
            && |r.obstacleLayer| == |s.obstacleLayer| + 2
            && r.obstacleLayer[|s.obstacleLayer|] == PaintOf(o)
            && r.obstacleLayer[|s.obstacleLayer| + 1] == PaintOf(o)
  {
  }
}

=== FILE: status_badge.dfy ===
/**
 The status badge (`getStatus`, game.component.ts:319-332): the HTML pill
 that labels a player's status. Known statuses get a fixed pill style and
 show the status itself as the text; any other value has no badge.
 */
module StatusBadge {
  import opened Wrappers
  import opened Entities

  /** The Bootstrap pill styles in use. */
  datatype Pill = Primary | Success | Danger | Secondary

  function PillClass(p: Pill): string {
    match p
    case Primary => "primary"
    case Success => "success"
    case Danger => "danger"
    case Secondary => "secondary"
  }

  /** The opening tag of a pill. */
  function Open(p: Pill): string {
    "<span class='badge badge-pill badge-" + PillClass(p) + "'>"
  }

  /** The closing tag of every pill. */
  const Close: string := "</span>"

  /** A pill of style `p` showing `text`. */
  function Badge(p: Pill, text: string): string {
    Open(p) + text + Close
  }

  /** The statuses the client knows how to draw. */
  predicate Known(status: string) {
    status == Connected || status == Alive || status == Winner || status == Dead || status == Disconnected
  }

  /** `getStatus`: the badge of a status, or nothing for an unknown status. */
  function GetStatus(status: string): (r: Option<string>)
    ensures r.Some? <==> Known(status)
    ensures status == Connected ==> r == Some(Badge(Primary, status))
    ensures status == Alive || status == Winner ==> r == Some(Badge(Success, status))
    ensures status == Dead ==> r == Some(Badge(Danger, status))
    ensures status == Disconnected ==> r == Some(Badge(Secondary, status))
  {
    if status == Connected then Some(Badge(Primary, "Connected"))
    else if status == Alive || status == Winner then Some(Badge(Success, status))
    else if status == Dead then Some(Badge(Danger, "Dead"))
    else if status == Disconnected then Some(Badge(Secondary, "Disconnected"))
    else None
  }

  /** Reads a pill of style `p` back into its text. */
  function ParseWith(h: string, p: Pill): Option<string> {
    var n := |Open(p)|;
    if n + |Close| <= |h| && h[..n] == Open(p) && h[|h| - |Close|..] == Close
    then Some(h[n..|h| - |Close|])
    else None
  }

  /** Reads any pill back into its style and text. */
  function ParseBadge(h: string): Option<(Pill, string)> {
    match ParseWith(h, Primary)
    case Some(l) => Some((Primary, l))
    case None =>
      match ParseWith(h, Success)
      case Some(l) => Some((Success, l))
      case None =>
        match ParseWith(h, Danger)
        case Some(l) => Some((Danger, l))
        case None =>
          match ParseWith(h, Secondary)
          case Some(l) => Some((Secondary, l))
          case None => None
  }

  /** Pill styles are told apart by their class name, at position 36 or 37 of the opening tag. */
  lemma OpenTagsDiffer(p: Pill, q: Pill)
    requires p != q
    ensures exists k :: 36 <= k < 38 && k < |Open(p)| && k < |Open(q)| && Open(p)[k] != Open(q)[k]
  {
    var prefix := "<span class='badge badge-pill badge-";
    assert |prefix| == 36;
    assert Open(p)[36] == PillClass(p)[0] && Open(q)[36] == PillClass(q)[0];
    assert Open(p)[37] == PillClass(p)[1] && Open(q)[37] == PillClass(q)[1];
    if Open(p)[36] != Open(q)[36] {
      assert 36 < |Open(p)| && 36 < |Open(q)|;
    } else {
      assert Open(p)[37] != Open(q)[37];
    }
  }

  /** A pill of one style is not read as a pill of another. */
  lemma OtherStyleRejects(p: Pill, q: Pill, text: string)
    requires p != q
    ensures ParseWith(Badge(p, text), q) == None
  {
    var h := Badge(p, text);
    OpenTagsDiffer(p, q);
    var k :| 36 <= k < 38 && k < |Open(p)| && k < |Open(q)| && Open(p)[k] != Open(q)[k];
    assert h[k] == Open(p)[k];
    if |Open(q)| <= |h| {
      assert h[..|Open(q)|][k] == h[k];
    }
  }

  /** A pill is read back as the style and text it was written with. */
  lemma ParseRoundTrip(p: Pill, text: string)
    ensures ParseBadge(Badge(p, text)) == Some((p, text))
  {
    var h := Badge(p, text);
    var n := |Open(p)|;
    assert h[..n] == Open(p);
    assert h[|h| - |Close|..] == Close;
    assert h[n..|h| - |Close|] == text;
    assert ParseWith(h, p) == Some(text);
    if p != Primary { OtherStyleRejects(p, Primary, text); }
    if p != Success { OtherStyleRejects(p, Success, text); }
    if p != Danger { OtherStyleRejects(p, Danger, text); }
  }

  /**
   Every known status has a badge that reads back as that very status, in
   the style the client uses for it; so distinct statuses get distinct badges.
   */
  lemma BadgeShowsStatus(status: string)
    requires Known(status)
    ensures GetStatus(status).Some?
    ensures ParseBadge(GetStatus(status).value).Some?
    ensures ParseBadge(GetStatus(status).value).value.1 == status
  {
    if status == Connected {
      ParseRoundTrip(Primary, status);
    } else if status == Alive || status == Winner {
      ParseRoundTrip(Success, status);
    } else if status == Dead {
      ParseRoundTrip(Danger, status);
    } else {
      ParseRoundTrip(Secondary, status);
    }
  }

  lemma BadgesDistinct(a: string, b: string)
    requires Known(a) && Known(b) && a != b
    ensures GetStatus(a) != GetStatus(b)
  {
    BadgeShowsStatus(a);
    BadgeShowsStatus(b);
  }
}

=== FILE: synchronizer.dfy ===
/**
 The message handler (game.component.ts:51-162): the fields of one message
 are applied in a fixed order (requeue, obstacles, moving obstacles, roster,
 player status, keep-alive) and then one frame is drawn.
 */
module Synchronizer {
  import opened Wrappers
  import opened Entities
  import opened Messages
  import opened GameState
  import StaticObstacles
  import MovingObstacles
  import PlayerList
  import PlayerStatus

  /**
   Every `players` entry names a player that exists when that field is
   applied: tracked already, or named by the roster of the same message.
   */
  predicate StatusIdsKnown(s: State, m: Message) {
    m.players.Some? ==>
      forall i :: 0 <= i < |m.players.value| ==>
        || m.players.value[i].id in s.players
        || (m.playerlist.Some? && m.players.value[i].id in ListIds(m.playerlist.value))
  }

  /** The ids the roster of `m` names, if it has one. */
  function RosterIds(m: Message): set<string> {
    if m.playerlist.Some? then ListIds(m.playerlist.value) else {}
  }

  /** The ids the status list of `m` names, if it has one. */
  function StatusIds(m: Message): set<string> {
    if m.players.Some? then EntryIds(m.players.value) else {}
  }

  /** The player map after the roster of `m`, if it has one. */
  function RosterPlayers(players: map<string, Player>, m: Message): map<string, Player> {
    if m.playerlist.Some? then PlayerList.Roster(players, m.playerlist.value) else players
  }

  /**
   The player map after the status list of `m`, if it has one: the entries in
   order, then the end-of-round reveal when none is `Alive`.
   */
  function StatusPlayers(players: map<string, Player>, m: Message): map<string, Player>
    requires m.players.Some? ==> PlayerStatus.AllTracked(players, m.players.value)
  {
    if m.players.None? then players
    else
      var t := PlayerStatus.UpdateStatuses(players, m.players.value);
      if PlayerStatus.NoneAlive(m.players.value) then PlayerStatus.RevealAll(t) else t
  }

  /** The `movingObstacles` field applied on its own. */
  function MovedObstacles(s: State, m: Message): State
    requires Valid(s)
  {
    if m.movingObstacles.Some? then MovingObstacles.SyncMovingObstacles(s, m.movingObstacles.value) else s
  }

  /** The sprites the roster of `m` puts on the stage. */
  function RosterSprites(m: Message): set<Drawable> {
    if m.playerlist.Some? then PlayerList.SpritesOf(m.playerlist.value) else {}
  }

  /** The trail clears the `movingObstacles` field causes: only an update in place clears. */
  function MovingErases(s: State, m: Message): seq<TrailOp> {
    if m.movingObstacles.Some? && !MovingObstacles.Rebuilds(s.obstacles, m.movingObstacles.value)
    then MovingObstacles.ErasesOf(m.movingObstacles.value) else []
  }

  /** The trail stamps and refreshes the `players` field causes. */
  function StatusTrail(m: Message): seq<TrailOp> {
    if m.players.Some? then PlayerStatus.TrailOf(m.players.value) else []
  }

  /** The fields the later stages of one message leave alone. */
  ghost predicate SessionKept(s: State, r: State) {
    r.roundId == s.roundId && r.reloadRequested == s.reloadRequested
    && r.frames == s.frames && r.outbox == s.outbox
  }

  /** The logs only grow. */
  ghost predicate LogsGrow(s: State, r: State) {
    && |s.trail| <= |r.trail| && r.trail[..|s.trail|] == s.trail
    && |s.obstacleLayer| <= |r.obstacleLayer| && r.obstacleLayer[..|s.obstacleLayer|] == s.obstacleLayer
  }

  function AfterRequeue(s: State, m: Message): (r: State)
    ensures RequeueRequested(m) ==> r.roundId == m.requeue.value && r.reloadRequested
    ensures !RequeueRequested(m) ==> r.roundId == s.roundId && r.reloadRequested == s.reloadRequested
    ensures r == s.(roundId := r.roundId, reloadRequested := r.reloadRequested)
  {
    if RequeueRequested(m) then ProcessRequeue(s, m.requeue.value) else s
  }

  function AfterObstacles(s: State, m: Message): (r: State)
    ensures var s1 := AfterRequeue(s, m);
            && r == s1.(obstacleLayer := r.obstacleLayer)
            && |r.obstacleLayer| == |s.obstacleLayer| + (if m.obstacles.Some? then |m.obstacles.value| else 0)
            && r.obstacleLayer[..|s.obstacleLayer|] == s.obstacleLayer
    ensures m.obstacles.Some? ==>
              forall i :: 0 <= i < |m.obstacles.value| ==>
                r.obstacleLayer[|s.obstacleLayer| + i] == StaticObstacles.PaintOf(m.obstacles.value[i])
  {
    var s1 := AfterRequeue(s, m);
    if m.obstacles.Some? then StaticObstacles.PaintObstacles(s1, m.obstacles.value) else s1
  }

  function AfterMovingObstacles(s: State, m: Message): (r: State)
    requires Valid(s)
    ensures var s2 := AfterObstacles(s, m);
            Valid(r) && r.players == s2.players && SessionKept(s2, r) && LogsGrow(s2, r)
            && r.obstacleLayer == s2.obstacleLayer
            && r.trail == s2.trail + MovingErases(s, m)
            && r.obstacles == MovedObstacles(s, m).obstacles && r.stage == MovedObstacles(s, m).stage
  {
    var s2 := AfterObstacles(s, m);
    if m.movingObstacles.Some? then
      MovingObstacles.SyncReadsObstaclesOnly(s, s2, m.movingObstacles.value);
      MovingObstacles.SyncMovingObstacles(s2, m.movingObstacles.value)
    else s2
  }

  function AfterRoster(s: State, m: Message): (r: State)
    requires Valid(s)
    ensures var s3 := AfterMovingObstacles(s, m);
            Valid(r) && r.players.Keys == s3.players.Keys + RosterIds(m)
            && r == s3.(players := r.players, stage := r.stage)
            && r.stage == s3.stage + RosterSprites(m)
            && r.players == RosterPlayers(s3.players, m)
            && (forall id :: id in s3.players && id !in RosterIds(m) ==> r.players[id] == s3.players[id])
  {
    var s3 := AfterMovingObstacles(s, m);
    if m.playerlist.Some? then PlayerList.ApplyPlayerList(s3, m.playerlist.value) else s3
  }

  function AfterPlayers(s: State, m: Message): (r: State)
    requires Valid(s) && StatusIdsKnown(s, m)
    ensures var s4 := AfterRoster(s, m);
            && r == s4.(players := r.players, trail := r.trail)
            && r.players.Keys == s4.players.Keys
            && LogsGrow(s4, r)
            && r.trail == s4.trail + StatusTrail(m)
            && (m.players.None? ==> r == s4)
            && (m.players.Some? ==> PlayerStatus.AllTracked(s4.players, m.players.value))
            && r.players == StatusPlayers(s4.players, m)
            && (forall id :: id in s4.players && id !in StatusIds(m) ==>
                  r.players[id] == s4.players[id].(tooltip := r.players[id].tooltip))
            && (m.players.Some? && PlayerStatus.NoneAlive(m.players.value) ==>
                  forall id :: id in r.players ==> r.players[id].tooltip == Tooltip(true, 1.0))
  {
    var s4 := AfterRoster(s, m);
    if m.players.Some? then
      assert PlayerStatus.AllTracked(s4.players, m.players.value);
      PlayerStatus.ApplyPlayers(s4, m.players.value)
    else s4
  }

  /**
   One message. The reload a `requeue` asks for is asynchronous, so the other
   fields of the same message are still applied to the round about to be
   discarded (see `RequeueDiscardsRest`).
   */
  function Step(s: State, m: Message): (r: State)
    requires Valid(s) && StatusIdsKnown(s, m)
    ensures Valid(r)
    // exactly one frame is drawn per message
    ensures r.frames == s.frames + 1
    // the keep-alive is echoed, and nothing else is sent
    ensures r.outbox == s.outbox + (if m.keepAlive then [KeepAlive] else [])
    // players are created by the roster only, and never dropped
    ensures r.players.Keys == s.players.Keys + RosterIds(m)
    // requeue remembers the new round and asks for a reload
    ensures RequeueRequested(m) ==> r.roundId == m.requeue.value && r.reloadRequested
    ensures !RequeueRequested(m) ==> r.roundId == s.roundId && r.reloadRequested == s.reloadRequested
    // the static-obstacle layer grows by one paint per incoming obstacle, nothing removed
    ensures |r.obstacleLayer| == |s.obstacleLayer| + (if m.obstacles.Some? then |m.obstacles.value| else 0)
    ensures r.obstacleLayer[..|s.obstacleLayer|] == s.obstacleLayer
    ensures m.obstacles.Some? ==>
              forall i :: 0 <= i < |m.obstacles.value| ==>
                r.obstacleLayer[|s.obstacleLayer| + i] == StaticObstacles.PaintOf(m.obstacles.value[i])
    // the players: the roster, then the status list, which names only players known by then
    ensures m.players.Some? ==> PlayerStatus.AllTracked(RosterPlayers(s.players, m), m.players.value)
    ensures r.players == StatusPlayers(RosterPlayers(s.players, m), m)
    // a player neither list names changes at most in its tooltip
    ensures forall id :: id in s.players && id !in RosterIds(m) && id !in StatusIds(m) ==>
              r.players[id] == s.players[id].(tooltip := r.players[id].tooltip)
    // the trail log is append-only
    ensures |s.trail| <= |r.trail| && r.trail[..|s.trail|] == s.trail
    // the trail gains the moving-obstacle clears first, then the status stamps
    ensures r.trail == s.trail + MovingErases(s, m) + StatusTrail(m)
    // the moving obstacles are those the `movingObstacles` field leaves
    ensures r.obstacles == MovedObstacles(s, m).obstacles
    // the stage: the moving-obstacle step's children plus the roster's sprites
    ensures r.stage == MovedObstacles(s, m).stage + RosterSprites(m)
    // the end-of-round reveal
    ensures m.players.Some? && PlayerStatus.NoneAlive(m.players.value) ==>
              forall id :: id in r.players ==> r.players[id].tooltip == Tooltip(true, 1.0)
  {
    var s5 := AfterPlayers(s, m);
    MessagePlayers(s, m);
    MessageTrail(s, m);
    MessageLayers(s, m);
    var s6 := if m.keepAlive then s5.(outbox := s5.outbox + [KeepAlive]) else s5;
    s6.(frames := s6.frames + 1)
  }

  /** What the fields of one message do to the players. */
  lemma MessagePlayers(s: State, m: Message)
    requires Valid(s) && StatusIdsKnown(s, m)
    ensures var r := AfterPlayers(s, m);
            && r.players.Keys == s.players.Keys + RosterIds(m)
            && (m.players.Some? ==> PlayerStatus.AllTracked(RosterPlayers(s.players, m), m.players.value))
            && r.players == StatusPlayers(RosterPlayers(s.players, m), m)
            && (forall id :: id in s.players && id !in RosterIds(m) && id !in StatusIds(m) ==>
                  r.players[id] == s.players[id].(tooltip := r.players[id].tooltip))
  {
    var s3 := AfterMovingObstacles(s, m);
    var s4 := AfterRoster(s, m);
    assert s3.players == s.players;
    assert s4.players == RosterPlayers(s.players, m);
  }

  /** The trail of one message: the moving-obstacle clears, then the status stamps. */
  lemma MessageTrail(s: State, m: Message)
    requires Valid(s) && StatusIdsKnown(s, m)
    ensures var r := AfterPlayers(s, m);
            && r.trail == s.trail + MovingErases(s, m) + StatusTrail(m)
            && |s.trail| <= |r.trail| && r.trail[..|s.trail|] == s.trail
  {
    var s2 := AfterObstacles(s, m);
    var s3 := AfterMovingObstacles(s, m);
    var s4 := AfterRoster(s, m);
    var s5 := AfterPlayers(s, m);
    assert s2.trail == s.trail;
    assert s3.trail == s.trail + MovingErases(s, m);
    assert s4.trail == s3.trail;
    assert s5.trail == s4.trail + StatusTrail(m);
    PrefixOfAppend(s.trail + MovingErases(s, m), StatusTrail(m));
    PrefixOfAppend(s.trail, MovingErases(s, m));
  }

  lemma PrefixOfAppend<T>(a: seq<T>, b: seq<T>)
    ensures |a| <= |a + b| && (a + b)[..|a|] == a
  {
  }

  /** The session fields, obstacle layer, moving obstacles and stage after one message. */
  lemma MessageLayers(s: State, m: Message)
    requires Valid(s) && StatusIdsKnown(s, m)
    ensures var r, s1 := AfterPlayers(s, m), AfterRequeue(s, m);
            && r.roundId == s1.roundId && r.reloadRequested == s1.reloadRequested
            && r.frames == s.frames && r.outbox == s.outbox
            && r.obstacleLayer == AfterObstacles(s, m).obstacleLayer
            && r.obstacles == MovedObstacles(s, m).obstacles
            && r.stage == MovedObstacles(s, m).stage + RosterSprites(m)
  {
    var s2 := AfterObstacles(s, m);
    var s3 := AfterMovingObstacles(s, m);
    var s4 := AfterRoster(s, m);
    assert SessionKept(s2, s3) && s3.obstacleLayer == s2.obstacleLayer;
    assert s4.obstacles == s3.obstacles && s4.stage == s3.stage + RosterSprites(m);
  }

  /** A message with no field only draws a frame. */
  lemma EmptyMessageOnlyDraws(s: State)
    requires Valid(s)
    ensures Step(s, EmptyMessage) == s.(frames := s.frames + 1)
  {
  }

  /**
   Once a message asks for a requeue, whatever else it carries is lost: after
   the reload the page is as freshly loaded for the new round id, with the
   commands already sent, the re-join among them, remembered.
   */
  lemma RequeueDiscardsRest(s: State, m: Message, isSpectator: Option<string>, userId: Option<string>)
    requires Valid(s) && StatusIdsKnown(s, m) && RequeueRequested(m)
    ensures var r := Step(s, m);
            var loaded := Initial(m.requeue.value, isSpectator, userId);
            Reload(r, isSpectator, userId) == loaded.(outbox := r.outbox + loaded.outbox)
  {
  }

  /**
   A tracked player stays tracked, with the name and colour it was created
   with, whatever message arrives.
   */
  lemma PlayerIdentityStable(s: State, m: Message, id: string)
    requires Valid(s) && StatusIdsKnown(s, m) && id in s.players
    ensures var r := Step(s, m);
            id in r.players && r.players[id].name == s.players[id].name && r.players[id].color == s.players[id].color
  {
    var s3 := AfterMovingObstacles(s, m);
    var s4 := AfterRoster(s, m);
    assert s3.players == s.players;
    if m.playerlist.Some? {
      PlayerList.RosterKeepsIdentity(s3.players, m.playerlist.value, id);
    }
    assert s4.players[id].name == s.players[id].name && s4.players[id].color == s.players[id].color;
    var s5 := AfterPlayers(s, m);
    if m.players.Some? {
      assert PlayerStatus.AllTracked(s4.players, m.players.value);
      PlayerStatus.StatusKeepsIdentity(s4.players, m.players.value, id);
    }
    assert s5.players[id].name == s.players[id].name && s5.players[id].color == s.players[id].color;
    assert Step(s, m).players == s5.players;
  }
}

=== FILE: wrappers.dfy ===
/** An optional value, standing for a JavaScript field or lookup that may be absent. */
module Wrappers {

  datatype Option<+T> = None | Some(value: T)
}
